=== FILE: README.md ===
# Bulk: coarrays, futures and collective folds — a Dafny model

Bulk is a bulk-synchronous parallel (BSP) library. `p` processors run the same
program in supersteps. A *coarray* gives each processor one local image of a
distributed array. Remote writes (`xs(t)[i] = v`, slice writes, range puts) and
remote reads (`xs(t)[i].get()`, which returns a *future*) are only queued.
They take effect at the next `sync`, the barrier that closes the superstep.
The collective algorithms `gather_all`, `foldl` and `foldl_each` are built on
this layer.

The model treats the whole machine as one sequential value:

- `Superstep.State` holds every processor's image of one coarray, the outbox of
  queued operations in issue order, and the heap of future buffers.
- `Superstep.Sync` is one atomic step over all processors. It applies every
  queued put in issue order, then answers every queued get from the updated
  images, then clears the outbox.
- `Superstep.LastWrite` is the reference meaning of a superstep's puts: the
  value the last put covering a cell writes there. `Sync`'s contract is stated
  against it.
- `Futures` models a future as a handle naming one heap buffer. The buffer is
  pending until the sync that answers its get. There is no copy operation.
  Moves hand the buffer over. `Owned` means no two live handles share a buffer
  and every live buffer exists. It survives creation, both moves, writing
  through `value()` and the sync.
- `Coarrays` models the constructors, local indexing, `size`/`empty`, single
  and range puts, `get`, the scalar slice assignment and the chunked vector
  slice put.
- `Algorithms` simulates each collective over all `p` processors:
  - `gather_all`: every processor puts its value into a fresh coarray of p
    elements on every processor. One sync delivers the puts, and the coarray
    is returned. There is no fold.
  - `foldl` over a variable: it gathers the values and then folds them on
    every processor.
  - `foldl` over a coarray: each processor first folds its own image, then
    gathers those partial results and folds them.
  - `foldl_each`: every processor puts its whole image into its own block of
    a fresh coarray on every processor. One sync delivers the puts, and then
    every processor folds each column.

Files: `wrappers.dfy` (Option/Result), `folds.dfy` (left folds and their laws),
`futures.dfy`, `superstep.dfy`, `coarrays.dfy`, `algorithms.dfy`.

Modelling decisions:

- Supplied as parameters: the value-initialised element (`init`) and the
  initial contents the array layer gives a new image (`zero`). The model has
  no generic default value.
- The coarray code does no bounds check on a remote index. The array layer
  beneath it is not part of this model, so what an out-of-range put or get
  does there is unknown. The model refuses the whole superstep at `Sync` with
  `IndexOutOfRange`.
- A put of no elements copies nothing, so the model accepts it at any offset
  of an existing target. For example, the slice {20, 20} on a 12-element
  image issues a put of no elements at 20, and the sync accepts it. The
  trailing empty chunk at `last == size` is in range anyway.
- The source leaves the order between different processors' operations in one
  superstep unspecified. The model's outbox is one interleaving that keeps each
  processor's own issue order. The collective algorithms only write disjoint
  cells, so their results do not depend on that choice.
- The vector slice loop advances by `values.size()`. With an empty vector and
  `first <= last` it never advances and never ends. `Coarrays.Chunks` and
  `Coarrays.SliceChunks` therefore require `|values| > 0 || last < first`. A
  reversed slice breaks out at once even with an empty vector.
- The fold loops call `f(result, images[t])` (and `f(local_result, x[i])`) and discard what `f` returns
  (include/bulk/algorithm.hpp:75, 106, 113, 154). So `f` must update its left
  argument in place. The model's `f` returns the left argument's value after
  that call. A function that only returns a value, such as `std::plus`, leaves
  the source's result at `start_value`. The documentation comments describe
  `f` as returning the combined value.
- The foldl documentation comments describe `f(f(x(0), x(1)), ...)` without the
  start value. The code folds from `start_value`, and the coarray overload
  folds twice: first each image, then the partial results. The model follows
  the code. `Algorithms.FoldlCoarrayFlat` proves the two-level fold equals the
  documented flat fold when `f` is associative and `start` is its identity.
- `future(world)` value-initialises its buffer (`make_unique<T>()`); the model
  follows that. It does not leave the buffer uninitialised.

## Model

| member | source | states |
|---|---|---|
| `Coarrays.FillImage` | include/bulk/coarray.hpp:153-158 | the default-value constructor's loop leaves a local image of the requested length in which every index holds the default value |
| `Coarrays.Create` | include/bulk/coarray.hpp:141-158 | registering a coarray gives processor s an image of its own requested size with every element equal to that processor's own initial value (processors may pass different ones, as in `coarray<int> zs(world, s, s + 1)`), and an empty outbox |
| `Coarrays.SizeIsLocal` | include/bulk/coarray.hpp:242-247 | `size()` is the caller's own image length, `empty()` holds exactly when it is 0, and no sync ever changes a size |
| `Coarrays.LocalWrite` | include/bulk/coarray.hpp:177-178 | local `xs[i] = v` changes element i of the caller's image at once, leaves every other cell of every image alone and queues nothing |
| `Coarrays.PutLastWins` | include/bulk/coarray.hpp:201-204 | `put(t, idx, v)` changes no image before sync; the sync succeeds exactly when the rest of the superstep is in range and idx is inside image t; after it the cell holds v, overriding earlier puts, and every other cell is as the rest of the superstep left it |
| `Coarrays.OffByOneRefused` | include/bulk/coarray.hpp:237 | a put or a get at index `size` of the target image makes the sync refuse the superstep with IndexOutOfRange |
| `Coarrays.Get` | include/bulk/coarray.hpp:234-237 | `get(t, idx)` returns a future bound to the caller with a fresh buffer holding the value-initialised element and not resolved; it queues exactly one read of (t, idx), changes no image and leaves every existing future's value alone |
| `Coarrays.RoundTrip` | include/bulk/coarray.hpp:201-237 | in any addressable superstep, even one holding earlier puts to the same cell: `put(t, i, x)`, sync, `get(t, i)`, sync leaves the future resolved with value x |
| `Coarrays.Put` | include/bulk/coarray.hpp:201-204 | `put(t, idx, v)`, also the writer's `=` (coarray.hpp:95), only queues: images and futures are unchanged, and under the last-write reading of the queue cell (t, idx) now gets v while every other cell keeps its pending write |
| `Coarrays.PutRange` | include/bulk/coarray.hpp:225-232 | a range put only queues: under the last-write reading, offset + k of image t gets values[k] and every other cell keeps its pending write |
| `Coarrays.FillSlice` | include/bulk/coarray.hpp:52-56 | the scalar slice assignment only queues: under the last-write reading, every index of [first, last) of image t gets the value and every other cell keeps its pending write |
| `Coarrays.PutSlice` | include/bulk/coarray.hpp:58-70 | the vector slice assignment only queues: under the last-write reading, index j of the slice gets values[(j - first) % n] and every other cell keeps its pending write; a reversed slice with no values queues nothing |
| `Coarrays.FillSliceAccepted` | include/bulk/coarray.hpp:52-56 | the sync after a scalar slice assignment succeeds exactly when the rest of the superstep is in range and the slice is empty (last <= first) or the target exists with 0 <= first and last <= its size |
| `Coarrays.PutSliceAccepted` | include/bulk/coarray.hpp:206-223 | the sync after a vector slice put succeeds exactly when the rest of the superstep is in range and either the slice is reversed (nothing issued), or the target exists and the slice is {first, first} (one empty chunk) or lies inside its image |
| `Coarrays.PutRangeAccepted` | include/bulk/coarray.hpp:225-232 | the sync after a range put succeeds exactly when the rest of the superstep is in range, the target exists, and the range is empty or lies inside its image |
| `Superstep.SyncEnqueueAccepted` | include/bulk/algorithm.hpp:39-43 | issuing operations keeps a superstep acceptable to the barrier exactly when it was acceptable before and each new operation is in range |
| `Coarrays.FillOps` | include/bulk/coarray.hpp:52-56 | the puts the scalar slice loop issues, one per index of [first, last) ascending; their count and effect are stated by `Coarrays.FillOpsWrite` and their exact form by `Coarrays.FillOpsAt` |
| `Coarrays.FillOpsAt` | include/bulk/coarray.hpp:53-55 | the k-th put of the scalar slice loop is the one-element put of the value at first + k of the target, and there are last - first of them |
| `Coarrays.ChunksInside` | include/bulk/coarray.hpp:214-223 | every chunk the vector slice loop issues targets the named processor and lies within [first, last] |
| `Algorithms.GatherRow` | include/bulk/algorithm.hpp:39-41 | the puts one processor issues in gather_all; their form is stated by `Algorithms.GatherRowShape` and their effect by `Algorithms.GatherRowWrite` |
| `Algorithms.GatherOps` | include/bulk/algorithm.hpp:39-41 | the whole outbox of gather_all, processor by processor; its effect is stated by `Algorithms.GatherOpsWrite` and `Algorithms.GatherSynced` |
| `Algorithms.EachSegment` | include/bulk/algorithm.hpp:144-146 | the inner loop of foldl_each: processor s's puts of x[i] to index i + s * X of one image; its effect is stated by `Algorithms.EachSegmentWrite` and `Algorithms.EachSynced` |
| `Algorithms.EachBlock` | include/bulk/algorithm.hpp:143-147 | the outer loop of foldl_each over the target images; its effect is stated by `Algorithms.EachBlockWrite` and `Algorithms.EachSynced` |
| `Algorithms.EachOps` | include/bulk/algorithm.hpp:143-147 | the whole outbox of foldl_each, processor by processor; its effect is stated by `Algorithms.EachWrite` and `Algorithms.EachSynced` |
| `Coarrays.Size` | include/bulk/coarray.hpp:239-242 | the caller's own image length; its meaning is stated by `Coarrays.SizeIsLocal` |
| `Coarrays.Empty` | include/bulk/coarray.hpp:244-247 | size is 0; its meaning is stated by `Coarrays.SizeIsLocal` |
| `Coarrays.LocalRead` | include/bulk/coarray.hpp:177-178 | local `xs[i]` reads the caller's own image with no communication; `Coarrays.LocalWrite` states that it reads back what was written |
| `Futures.Value` | include/bulk/future.hpp:52 | the content of the one buffer the future owns; `Futures.Write` and `Futures.WriteIsolated` state its read-after-write and isolation |
| `Superstep.Sync` | include/bulk/algorithm.hpp:39-43 | the barrier succeeds exactly when every queued operation is in range; it empties the outbox, keeps every image's size, and leaves each cell holding the value of the last put issued to it, or its old value if none covered it |
| `Superstep.SyncAnswersGets` | include/bulk/coarray.hpp:97 | after the sync every get of the superstep has its buffer resolved with the element it named, read after all puts; no other buffer changes and no buffer appears or disappears |
| `Superstep.LastWriteAppend` | include/bulk/coarray.hpp:204 | for operations issued later, the later puts win: the last write to a cell comes from the later block whenever that block writes the cell |
| `Coarrays.FillOpsWrite` | include/bulk/coarray.hpp:52-56 | the scalar slice issues one one-element put per index, `last - first` puts in all (none when last <= first), writing the value to exactly the indices of [first, last) of the target |
| `Coarrays.FillSliceEffect` | include/bulk/coarray.hpp:47-56 | after sync, the scalar slice assignment leaves the value at every index of [first, last) of the target and every other cell as the rest of the superstep left it |
| `Coarrays.SliceChunks` | include/bulk/coarray.hpp:214-223 | the loop as written, stepping by the vector's length, issues exactly the chunk sequence `Chunks` defines; with a non-empty vector those chunks write values[(j - first) % n] to each index j of [first, last) of the target and nothing else; with an empty one (a reversed slice) nothing is issued |
| `Coarrays.Chunks` | include/bulk/coarray.hpp:214-223 | the recursive definition of the chunks the loop issues from index i on; its shape is stated by `Coarrays.ChunksShape` and `Coarrays.ChunksTrailing`, its effect by `Coarrays.ChunksWrite` |
| `Coarrays.ChunksShape` | include/bulk/coarray.hpp:215-221 | the chunks start at first, are contiguous and ascending, each has min(n, last - offset) <= n elements taken from the front of the vector; there are (last - first) / n + 1 of them and the trailing one has (last - first) % n elements, so it is empty exactly when n divides the slice length; a reversed slice issues nothing |
| `Coarrays.ChunksWrite` | include/bulk/coarray.hpp:206-223 | the chunks write values[k % n] to index first + k of the target for every 0 <= k < last - first and write no other cell |
| `Coarrays.PutSliceEffect` | include/bulk/coarray.hpp:58-70 | after sync, `xs(t)[{first, last}] = values` leaves values[(j - first) % n] at every index j of the slice and every other cell as the rest of the superstep left it |
| `Coarrays.ChunksExample` | include/bulk/coarray.hpp:209-212 | for the slice {2, 10} and the vector {3, 2, 4}, the loop issues chunks of 3, 3 and 2 elements at 2, 5 and 8 |
| `Coarrays.SliceExample` | include/bulk/coarray.hpp:63-67 | the same example turns an image of twelve zeros into 0, 0, 3, 2, 4, 3, 2, 4, 3, 2, 0, 0 |
| `Coarrays.ChunksTrailing` | include/bulk/coarray.hpp:215-221 | whenever the vector's length divides the slice length (including an empty slice {i, i}), the last chunk issued is a put of no elements at `last` |
| `Coarrays.TrailingChunkExample` | include/bulk/coarray.hpp:215-221 | for the slice {0, 6} and three values the chunks are full puts at 0 and 3 and a put of no elements at 6 |
| `Coarrays.PutRangeEffect` | include/bulk/coarray.hpp:225-232 | after sync, a range put leaves values[k] at offset + k of the target and every other cell as the rest of the superstep left it |
| `Futures.NewFuture` | include/bulk/future.hpp:24-26 | a new future is bound to its world and owns a buffer distinct from every existing one; the buffer holds the value-initialised element and is not resolved; no other buffer changes |
| `Futures.NewFutureKeepsOwnership` | include/bulk/future.hpp:24-26 | adding a new future to the live ones keeps every buffer owned by at most one handle |
| `Futures.MoveConstruct` | include/bulk/future.hpp:36-38 | move construction gives the new handle the source's world binding and buffer, leaves the source with no buffer and changes no other handle |
| `Futures.MoveAssign` | include/bulk/future.hpp:43-45 | move assignment gives the target the source's buffer and keeps the target's world; the source is left with none; self-assignment keeps the buffer; no other handle changes |
| `Futures.MovesKeepOwnership` | include/bulk/future.hpp:33-45 | with copying deleted, move construction and move assignment both keep every buffer owned by at most one live handle |
| `Futures.Write` | include/bulk/future.hpp:52 | a value written through `value()` is what the next read returns; the resolved flag and every other buffer are unchanged |
| `Futures.WriteKeepsOwnership` | include/bulk/future.hpp:52 | writing through one live future's `value()` keeps every live buffer owned by at most one handle and present in the heap |
| `Superstep.SyncKeepsOwnership` | include/bulk/coarray.hpp:97 | an addressable sync keeps every live buffer owned by at most one handle and present in the heap |
| `Futures.WriteIsolated` | include/bulk/future.hpp:52 | with unique ownership, writing through one live future never changes what another live future reads |
| `Folds.Accumulate` | include/bulk/algorithm.hpp:73-76 | the in-place accumulation loop computes the left fold of the sequence from the start value, in ascending order |
| `Algorithms.GatherRowShape` | include/bulk/algorithm.hpp:39-41 | in gather_all each processor issues exactly p one-element puts: its value to index `rank` of image 0, 1, ..., p - 1 in order |
| `Algorithms.GatherSynced` | include/bulk/algorithm.hpp:37-43 | the single sync of gather_all succeeds and leaves on every processor an image of length p whose index t holds processor t's value |
| `Algorithms.GatherAll` | include/bulk/algorithm.hpp:35-46 | the gathered coarray has p images, and each is the sequence of all contributions indexed by processor id, the same on every processor |
| `Algorithms.FoldlVar` | include/bulk/algorithm.hpp:66-78 | foldl over a variable returns, on every processor, the left fold from start over the p values in ascending processor order |
| `Algorithms.FoldlVarSum` | test/algorithm.cpp:18-24 | with + from 0 over the values s + 1, every processor gets p(p+1)/2 |
| `Algorithms.FoldlCoarray` | include/bulk/algorithm.hpp:98-116 | foldl over a coarray returns, on every processor, the left fold from start of the p local folds (each from start over that processor's image), in processor order |
| `Algorithms.FoldlCoarrayFlat` | include/bulk/algorithm.hpp:94-96 | for an associative f with identity start, that result is the documented single left fold over all elements, processor 0's first |
| `Algorithms.FoldlCoarraySum` | test/algorithm.cpp:26-34 | with + from 0 over the images [2s + 1, 2s + 2], every processor gets 2p(2p+1)/2 |
| `Algorithms.EachSynced` | include/bulk/algorithm.hpp:141-149 | the single sync of foldl_each succeeds; every image has p * X elements and holds processor s's x[i] at index i + s * X |
| `Algorithms.FoldlEach` | include/bulk/algorithm.hpp:136-159 | with every local size equal to X, each processor's result has X elements and element i is the left fold from start of x_0[i], ..., x_{p-1}[i], the same on every processor |
| `Algorithms.FoldlEachSum` | test/algorithm.cpp:37-46 | with + from 0 over the images [s + 1, s], every processor gets [p(p+1)/2, (p-1)p/2] |

The `Superstep` rows cite places where the source calls `sync` or resolves a
get. The barrier itself lives in the world layer, which is not part of this
model. `Superstep.Sync` is the model of that barrier, not a model of
`gather_all`.

## Left out

- Real concurrency is not modelled: thread or process spawning, the backend barrier, the environment's `spawn` and `available_processors`, and `log`. A sync is one atomic sequential step over all processors.
- The byte-level `array`, `world` and `communication` layer is not part of this model. It is represented by the typed outbox and `Sync`; no byte layout is modelled.
- Several coarrays used in one superstep are not modelled together: a `State` holds one coarray. Puts and gets on different coarrays address different registrations and write different cells.
- The collectives' effect on the caller's own superstep is not modelled. `gather_all` calls `world.sync()` (include/bulk/algorithm.hpp:43), and so `foldl` does too; `foldl_each` calls it at include/bulk/algorithm.hpp:149. That sync ends the caller's superstep for every coarray and resolves every pending future. `Algorithms.GatherAll`, `FoldlVar`, `FoldlCoarray` and `FoldlEach` only model each collective's own fresh coarray and its single sync.
- `slice_writer::get()` (include/bulk/coarray.hpp:72-74) is an unimplemented stub in the source.
- The coarray move constructor (include/bulk/coarray.hpp:160) is not modelled: it initialises its storage from itself and has no meaningful semantics. `gather_all` returns its coarray by value (include/bulk/algorithm.hpp:45). `Algorithms.GatherAll` assumes the compiler elides that copy, so the caller gets the synced coarray intact. Without copy elision the return would go through this constructor.
- The `enable_if` gate on the zero-initialising constructor, the `begin`/`end`/`world()` accessors, and the `image`/`writer`/`slice_writer` proxy objects are not modelled as such. The proxies appear only through the operations they forward to: `put`, `get` and the slice puts.
- The range put's iterator genericity is not modelled: it is a sequence put at an offset.
- `foldl_each` with different local sizes on different processors is not modelled. Its outcome depends on out-of-range puts handled in the unseen array layer.
- Reading a future before its sync is not refused. `Futures.Value` returns the buffer's current content (at first the value-initialised element), as the source does; the `resolved` flag records whether the sync has happened.
- Destroying a future is not modelled. A buffer that move assignment takes away from its target stays in the heap with no owner.
- `foldl` over a coarray lets the accumulator type differ from the element type only if `f` accepts both pairings. The model fixes them equal, which is the source's default. `foldl` over a variable keeps them apart.
- Coarrays.LocalRead: requires 0 <= i < size. The source's local `xs[i]` (include/bulk/coarray.hpp:177-178) does no check, and what an out-of-range index does there depends on the array layer, which is not part of this model.
- Coarrays.LocalWrite: requires 0 <= i < size, for the same reason as `LocalRead`.
- Futures.Value: requires the future to own a buffer. On a moved-from future the source (include/bulk/future.hpp:52) dereferences a null `unique_ptr`, which is undefined behaviour and is not modelled.
- Futures.Write: requires the future to own a buffer, for the same reason as `Futures.Value`.
- Coarrays.Create: takes sizes as `nat`. The source takes `int local_size` (include/bulk/coarray.hpp:143, 153); what a negative size does depends on the array layer, which is not part of this model.
- Coarrays.Chunks: indices are unbounded integers, so the source's 32-bit `int` arithmetic is not modelled. Near `INT_MAX`, `i += values.size()` can wrap before `last - i` turns negative.
- Coarrays.SliceChunks: states the same chunk sequence as `Chunks`, with the same unbounded indices, for the same reason.
- Algorithms.GatherRowShape: states that each processor issues p puts. That gather_all syncs exactly once follows from the model's structure (`GatherAll` calls `Sync` once) and is not a proved contract.
- The benchmark (timers, floating-point rates, report tables), the accelerator kernel tests and the test driver are not part of this model.

=== FILE: algorithms.dfy ===
/** The collective algorithms, each simulated over all p processors at once:
    every processor issues its puts into a fresh coarray, one sync delivers
    them, then every processor folds what arrived in its own image. */
module Algorithms {
  import opened Wrappers
  import opened Folds
  import opened Futures
  import opened Superstep
  import opened Coarrays

  function Repeat<T>(n: nat, x: T): seq<T> {
    seq(n, _ => x)
  }

  /** The puts processor s issues in gather_all: its value `v` to index s of
      image t, for t = t0, t0 + 1, ..., p - 1. */
  function GatherRow<T>(s: int, v: T, t0: nat, p: nat): seq<Op<T>>
    decreases p - t0
  {
    if t0 >= p then [] else [PutOp(t0, s, [v])] + GatherRow(s, v, t0 + 1, p)
  }

  /** The outbox of gather_all: processors s0, s0 + 1, ..., p - 1 in turn. */
  function GatherOps<T>(contrib: seq<T>, s0: nat): seq<Op<T>>
    decreases |contrib| - s0
  {
    if s0 >= |contrib| then []
    else GatherRow(s0, contrib[s0], 0, |contrib|) + GatherOps(contrib, s0 + 1)
  }

  /** The superstep of gather_all: a coarray of p elements on each of the p
      processors (its initial contents are whatever the array layer holds,
      here `zero`), and every processor's puts queued. */
  function GatherSuperstep<T>(contrib: seq<T>, zero: T): State<T>
  {
    Enqueue(Create(Repeat(|contrib|, |contrib|), Repeat(|contrib|, zero), EmptyHeap()), GatherOps(contrib, 0))
  }

  /** Processor s issues exactly p puts, one element each: the value to index
      s of image 0, 1, ..., p - 1 in that order. */
  lemma {:induction false} GatherRowShape<T>(s: int, v: T, t0: nat, p: nat)
    requires t0 <= p
    ensures |GatherRow(s, v, t0, p)| == p - t0
    ensures forall k | 0 <= k < p - t0 :: GatherRow(s, v, t0, p)[k] == PutOp(t0 + k, s, [v])
    decreases p - t0
  {
    if t0 < p {
      GatherRowShape(s, v, t0 + 1, p);
    }
  }

  lemma {:induction false} GatherRowWrite<T>(s: int, v: T, t0: nat, p: nat, u: int, j: int)
    ensures LastWrite(GatherRow(s, v, t0, p), u, j) == if t0 <= u < p && j == s then Some(v) else None
    decreases p - t0
  {
    if t0 < p {
      var head: seq<Op<T>> := [PutOp(t0, s, [v])];
      GatherRowWrite(s, v, t0 + 1, p, u, j);
      LastWriteAppend(head, GatherRow(s, v, t0 + 1, p), u, j);
      LastWriteSingle(head[0], u, j);
    }
  }

  lemma {:induction false} GatherOpsWrite<T>(contrib: seq<T>, s0: nat, u: int, j: int)
    ensures LastWrite(GatherOps(contrib, s0), u, j) ==
      if 0 <= u < |contrib| && s0 <= j < |contrib| then Some(contrib[j]) else None
    decreases |contrib| - s0
  {
    if s0 < |contrib| {
      var row := GatherRow(s0, contrib[s0], 0, |contrib|);
      GatherOpsWrite(contrib, s0 + 1, u, j);
      GatherRowWrite(s0, contrib[s0], 0, |contrib|, u, j);
      LastWriteAppend(row, GatherOps(contrib, s0 + 1), u, j);
    }
  }

  lemma {:induction false} GatherOpsInRange<T>(contrib: seq<T>, s0: nat, images: seq<seq<T>>)
    requires |images| == |contrib|
    requires forall u | 0 <= u < |images| :: |images[u]| == |contrib|
    ensures AllInRange(images, GatherOps(contrib, s0))
    decreases |contrib| - s0
  {
    if s0 < |contrib| {
      var row := GatherRow(s0, contrib[s0], 0, |contrib|);
      GatherRowShape(s0, contrib[s0], 0, |contrib|);
      GatherOpsInRange(contrib, s0 + 1, images);
      AllInRangeAppend(images, row, GatherOps(contrib, s0 + 1));
    }
  }

  /** The one sync of gather_all succeeds and leaves, on every processor, an
      image of length p whose index t holds processor t's contribution. */
  lemma GatherSynced<T>(contrib: seq<T>, zero: T)
    ensures Sync(GatherSuperstep(contrib, zero)).Success?
    ensures |Sync(GatherSuperstep(contrib, zero)).value.images| == |contrib|
    ensures forall u | 0 <= u < |contrib| :: Sync(GatherSuperstep(contrib, zero)).value.images[u] == contrib
  {
    var st := Create(Repeat(|contrib|, |contrib|), Repeat(|contrib|, zero), EmptyHeap());
    GatherOpsInRange(contrib, 0, st.images);
    assert st.outbox + GatherOps(contrib, 0) == GatherOps(contrib, 0);
    var after := Sync(GatherSuperstep(contrib, zero)).value;
    forall u | 0 <= u < |contrib| ensures after.images[u] == contrib {
      forall j | 0 <= j < |contrib| ensures after.images[u][j] == contrib[j] {
        GatherOpsWrite(contrib, 0, u, j);
      }
    }
  }

  /** `gather_all(world, value)`: processor s contributes `contrib[s]`; the
      result holds every processor's image after the sync. */
  function GatherAll<T>(contrib: seq<T>, zero: T): (images: seq<seq<T>>)
    ensures |images| == |contrib|
    ensures forall u | 0 <= u < |images| :: images[u] == contrib
  {
    GatherSynced(contrib, zero);
    Sync(GatherSuperstep(contrib, zero)).value.images
  }

  function Plus(a: int, b: int): int { a + b }

  /** [1, 2, ..., p]: the values `s + 1` the processors contribute in the tests. */
  function Successors(p: nat): seq<int> {
    seq(p, s requires 0 <= s < p => s + 1)
  }

  /** Summing 1..p gives p(p+1)/2. */
  lemma {:induction false} SumSuccessors(p: nat)
    ensures FoldL(Plus, 0, Successors(p)) == p * (p + 1) / 2
  {
    if p > 0 {
      assert Successors(p)[..p - 1] == Successors(p - 1);
      SumSuccessors(p - 1);
    }
  }

  /** `foldl(x, f, start)` over a distributed variable whose value on
      processor s is `x[s]`: result s is what processor s returns. */
  function FoldlVar<S, T>(x: seq<T>, f: (S, T) -> S, start: S, zero: T): (results: seq<S>)
    ensures |results| == |x|
    ensures forall s | 0 <= s < |x| :: results[s] == FoldL(f, start, x)
  {
    var images := GatherAll(x, zero);
    seq(|x|, s requires 0 <= s < |x| => FoldL(f, start, images[s]))
  }

  /** The test: with + from 0 over the values s + 1, every processor gets p(p+1)/2. */
  lemma FoldlVarSum(p: nat)
    ensures forall s | 0 <= s < p :: FoldlVar(Successors(p), Plus, 0, 0)[s] == p * (p + 1) / 2
  {
    SumSuccessors(p);
  }

  /** Each processor's fold of its own image, in processor order. */
  function LocalFolds<T>(images: seq<seq<T>>, f: (T, T) -> T, start: T): (partial: seq<T>)
  {
    seq(|images|, t requires 0 <= t < |images| => FoldL(f, start, images[t]))
  }

  /** `foldl(x, f, start)` over a coarray whose image on processor s is
      `images[s]`: each processor folds its own image from `start`, the p
      partial results are gathered, and each processor folds them in
      processor order, again from `start`. */
  function FoldlCoarray<T>(images: seq<seq<T>>, f: (T, T) -> T, start: T, zero: T): (results: seq<T>)
    ensures |results| == |images|
    ensures forall s | 0 <= s < |images| :: results[s] == FoldL(f, start, LocalFolds(images, f, start))
  {
    var gathered := GatherAll(LocalFolds(images, f, start), zero);
    seq(|images|, s requires 0 <= s < |images| => FoldL(f, start, gathered[s]))
  }

  /** For an associative `f` whose identity is `start`, the two-level fold is
      the single left fold over all elements, processor 0's first. */
  lemma FoldlCoarrayFlat<T(!new)>(images: seq<seq<T>>, f: (T, T) -> T, start: T, zero: T)
    requires Associative(f) && Identity(f, start)
    ensures forall s | 0 <= s < |images| :: FoldlCoarray(images, f, start, zero)[s] == FoldL(f, start, Concat(images))
  {
    FoldLOfFolds(f, start, images);
  }

  /** Processor s's image in the coarray test: [2s + 1, 2s + 2]. */
  function Pairs(p: nat): seq<seq<int>> {
    seq(p, s requires 0 <= s < p => [2 * s + 1, 2 * s + 2])
  }

  lemma {:induction false} PairsConcat(p: nat)
    ensures Concat(Pairs(p)) == Successors(2 * p)
  {
    if p > 0 {
      PairsConcat(p - 1);
      assert Pairs(p)[..p - 1] == Pairs(p - 1);
      assert Successors(2 * p) == Successors(2 * (p - 1)) + [2 * p - 1, 2 * p];
    }
  }

  /** The test: with + from 0 over the images [2s + 1, 2s + 2], every
      processor gets 2p(2p+1)/2. */
  lemma FoldlCoarraySum(p: nat)
    ensures forall s | 0 <= s < p :: FoldlCoarray(Pairs(p), Plus, 0, 0)[s] == 2 * p * (2 * p + 1) / 2
  {
    FoldlCoarrayFlat(Pairs(p), Plus, 0, 0);
    PairsConcat(p);
    SumSuccessors(2 * p);
  }

  /** Every processor's image has the same size `n`. */
  predicate Uniform<T>(xs: seq<seq<T>>, n: nat) {
    forall s | 0 <= s < |xs| :: |xs[s]| == n
  }

  lemma SlotInRange(s: nat, i: nat, p: nat, n: nat)
    requires s < p && i < n
    ensures 0 <= i + s * n < p * n
  {
    MulAtLeast(p - s, n);
    assert p * n == s * n + (p - s) * n;
  }

  /** The element of `image` where processor s's element i lands in
      foldl_each: index i + s * n of an image of p * n elements. */
  function Placed<T>(image: seq<T>, s: nat, i: nat, p: nat, n: nat): T
    requires |image| == p * n && s < p && i < n
  {
    SlotInRange(s, i, p, n);
    image[i + s * n]
  }

  /** Processor s's puts to image t in foldl_each: x[i] to index i + s * n,
      for i = i0, ..., n - 1. */
  function EachSegment<T>(s: nat, x: seq<T>, t: nat, i0: nat, n: nat): seq<Op<T>>
    requires n <= |x|
    decreases n - i0
  {
    if i0 >= n then [] else [PutOp(t, i0 + s * n, [x[i0]])] + EachSegment(s, x, t, i0 + 1, n)
  }

  /** Processor s's puts in foldl_each: to images t0, ..., p - 1 in turn. */
  function EachBlock<T>(s: nat, x: seq<T>, t0: nat, p: nat, n: nat): seq<Op<T>>
    requires n <= |x|
    decreases p - t0
  {
    if t0 >= p then [] else EachSegment(s, x, t0, 0, n) + EachBlock(s, x, t0 + 1, p, n)
  }

  /** The outbox of foldl_each: processors s0, ..., p - 1 in turn. */
  function EachOps<T>(xs: seq<seq<T>>, s0: nat, n: nat): seq<Op<T>>
    requires Uniform(xs, n)
    decreases |xs| - s0
  {
    if s0 >= |xs| then [] else EachBlock(s0, xs[s0], 0, |xs|, n) + EachOps(xs, s0 + 1, n)
  }

  lemma {:induction false} EachSegmentWrite<T>(s: nat, x: seq<T>, t: nat, i0: nat, n: nat, u: int, j: int)
    requires n <= |x|
    ensures LastWrite(EachSegment(s, x, t, i0, n), u, j) ==
      if u == t && i0 + s * n <= j < n + s * n then Some(x[j - s * n]) else None
    decreases n - i0
  {
    if i0 < n {
      var head: seq<Op<T>> := [PutOp(t, i0 + s * n, [x[i0]])];
      EachSegmentWrite(s, x, t, i0 + 1, n, u, j);
      LastWriteAppend(head, EachSegment(s, x, t, i0 + 1, n), u, j);
      LastWriteSingle(head[0], u, j);
    }
  }

  lemma {:induction false} EachBlockWrite<T>(s: nat, x: seq<T>, t0: nat, p: nat, n: nat, u: int, j: int)
    requires n <= |x|
    ensures LastWrite(EachBlock(s, x, t0, p, n), u, j) ==
      if t0 <= u < p && s * n <= j < n + s * n then Some(x[j - s * n]) else None
    decreases p - t0
  {
    if t0 < p {
      EachBlockWrite(s, x, t0 + 1, p, n, u, j);
      EachSegmentWrite(s, x, t0, 0, n, u, j);
      LastWriteAppend(EachSegment(s, x, t0, 0, n), EachBlock(s, x, t0 + 1, p, n), u, j);
    }
  }

  /** Cells below processor s0's slots are not written by processors s0 onward. */
  lemma {:induction false} EachBelow<T>(xs: seq<seq<T>>, s0: nat, n: nat, u: int, j: int)
    requires Uniform(xs, n)
    requires j < s0 * n
    ensures LastWrite(EachOps(xs, s0, n), u, j) == None
    decreases |xs| - s0
  {
    if s0 < |xs| {
      assert (s0 + 1) * n == s0 * n + n;
      EachBelow(xs, s0 + 1, n, u, j);
      EachBlockWrite(s0, xs[s0], 0, |xs|, n, u, j);
      LastWriteAppend(EachBlock(s0, xs[s0], 0, |xs|, n), EachOps(xs, s0 + 1, n), u, j);
    }
  }

  /** The last write to slot i + s * n of any image comes from processor s's x[i]. */
  lemma {:induction false} EachWrite<T>(xs: seq<seq<T>>, s0: nat, n: nat, u: int, s: nat, i: nat)
    requires Uniform(xs, n)
    requires 0 <= u < |xs| && s0 <= s < |xs| && i < n
    ensures LastWrite(EachOps(xs, s0, n), u, i + s * n) == Some(xs[s][i])
    decreases |xs| - s0
  {
    var block := EachBlock(s0, xs[s0], 0, |xs|, n);
    var rest := EachOps(xs, s0 + 1, n);
    LastWriteAppend(block, rest, u, i + s * n);
    if s == s0 {
      assert (s0 + 1) * n == s0 * n + n;
      EachBelow(xs, s0 + 1, n, u, i + s * n);
      EachBlockWrite(s0, xs[s0], 0, |xs|, n, u, i + s * n);
    } else {
      EachWrite(xs, s0 + 1, n, u, s, i);
    }
  }

  lemma {:induction false} EachSegmentInRange<T>(s: nat, x: seq<T>, t: nat, i0: nat, n: nat, images: seq<seq<T>>, p: nat)
    requires n <= |x| && s < p && t < |images| && |images[t]| == p * n
    ensures AllInRange(images, EachSegment(s, x, t, i0, n))
    decreases n - i0
  {
    if i0 < n {
      var head: seq<Op<T>> := [PutOp(t, i0 + s * n, [x[i0]])];
      SlotInRange(s, i0, p, n);
      assert InRange(images, head[0]);
      EachSegmentInRange(s, x, t, i0 + 1, n, images, p);
      AllInRangeAppend(images, head, EachSegment(s, x, t, i0 + 1, n));
    }
  }

  lemma {:induction false} EachBlockInRange<T>(s: nat, x: seq<T>, t0: nat, n: nat, images: seq<seq<T>>)
    requires n <= |x| && s < |images|
    requires forall u | 0 <= u < |images| :: |images[u]| == |images| * n
    ensures AllInRange(images, EachBlock(s, x, t0, |images|, n))
    decreases |images| - t0
  {
    if t0 < |images| {
      EachSegmentInRange(s, x, t0, 0, n, images, |images|);
      EachBlockInRange(s, x, t0 + 1, n, images);
      AllInRangeAppend(images, EachSegment(s, x, t0, 0, n), EachBlock(s, x, t0 + 1, |images|, n));
    }
  }

  lemma {:induction false} EachOpsInRange<T>(xs: seq<seq<T>>, s0: nat, n: nat, images: seq<seq<T>>)
    requires Uniform(xs, n) && |images| == |xs|
    requires forall u | 0 <= u < |images| :: |images[u]| == |xs| * n
    ensures AllInRange(images, EachOps(xs, s0, n))
    decreases |xs| - s0
  {
    if s0 < |xs| {
      EachBlockInRange(s0, xs[s0], 0, n, images);
      EachOpsInRange(xs, s0 + 1, n, images);
      AllInRangeAppend(images, EachBlock(s0, xs[s0], 0, |xs|, n), EachOps(xs, s0 + 1, n));
    }
  }

  /** The superstep of foldl_each: a coarray of p * n elements on every
      processor, and every processor's puts queued. */
  function EachSuperstep<T>(xs: seq<seq<T>>, n: nat, zero: T): State<T>
    requires Uniform(xs, n)
  {
    Enqueue(Create(Repeat(|xs|, |xs| * n), Repeat(|xs|, zero), EmptyHeap()), EachOps(xs, 0, n))
  }

  /** After the one sync of foldl_each, every image has p * n elements and
      holds processor s's x[i] at index i + s * n. */
  lemma EachSynced<T>(xs: seq<seq<T>>, n: nat, zero: T)
    requires Uniform(xs, n)
    ensures Sync(EachSuperstep(xs, n, zero)).Success?
    ensures var images := Sync(EachSuperstep(xs, n, zero)).value.images;
      && |images| == |xs|
      && (forall u | 0 <= u < |xs| :: |images[u]| == |xs| * n)
      && (forall u, s, i | 0 <= u < |xs| && 0 <= s < |xs| && 0 <= i < n ::
            Placed(images[u], s, i, |xs|, n) == xs[s][i])
  {
    var st := Create(Repeat(|xs|, |xs| * n), Repeat(|xs|, zero), EmptyHeap());
    EachOpsInRange(xs, 0, n, st.images);
    assert st.outbox + EachOps(xs, 0, n) == EachOps(xs, 0, n);
    var images := Sync(EachSuperstep(xs, n, zero)).value.images;
    forall u, s, i | 0 <= u < |xs| && 0 <= s < |xs| && 0 <= i < n
      ensures Placed(images[u], s, i, |xs|, n) == xs[s][i]
    {
      SlotInRange(s, i, |xs|, n);
      EachWrite(xs, 0, n, u, s, i);
    }
  }

  /** Element i of every processor, in processor order. */
  function Column<T>(xs: seq<seq<T>>, n: nat, i: nat): seq<T>
    requires Uniform(xs, n) && i < n
  {
    seq(|xs|, t requires 0 <= t < |xs| => xs[t][i])
  }

  /** What processor s reads for result[i]: images[t * n + i] for t = 0, ..., p - 1. */
  function PlacedColumn<T>(image: seq<T>, p: nat, n: nat, i: nat): seq<T>
    requires |image| == p * n && i < n
  {
    seq(p, t requires 0 <= t < p => Placed(image, t, i, p, n))
  }

  /** `foldl_each(x, f, start)` with processor s's image `xs[s]`, all of size
      n: result s has n elements and element i is the left fold from `start`
      of element i of every processor, processor 0 first. */
  function FoldlEach<T>(xs: seq<seq<T>>, n: nat, f: (T, T) -> T, start: T, zero: T): (results: seq<seq<T>>)
    requires Uniform(xs, n)
    ensures |results| == |xs|
    ensures forall s | 0 <= s < |xs| :: |results[s]| == n
    ensures forall s, i | 0 <= s < |xs| && 0 <= i < n :: results[s][i] == FoldL(f, start, Column(xs, n, i))
  {
    EachSynced(xs, n, zero);
    var images := Sync(EachSuperstep(xs, n, zero)).value.images;
    assert forall s, i | 0 <= s < |xs| && 0 <= i < n :: PlacedColumn(images[s], |xs|, n, i) == Column(xs, n, i);
    seq(|xs|, s requires 0 <= s < |xs| =>
      seq(n, i requires 0 <= i < n => FoldL(f, start, PlacedColumn(images[s], |xs|, n, i))))
  }

  /** Processor s's image in the foldl_each test: [s + 1, s]. */
  function ShiftedPairs(p: nat): seq<seq<int>> {
    seq(p, s requires 0 <= s < p => [s + 1, s])
  }

  lemma {:induction false} SumIndices(p: nat)
    ensures FoldL(Plus, 0, seq(p, s requires 0 <= s < p => s)) == (p - 1) * p / 2
  {
    if p > 0 {
      assert seq(p, s requires 0 <= s < p => s)[..p - 1] == seq(p - 1, s requires 0 <= s < p - 1 => s);
      SumIndices(p - 1);
    }
  }

  /** The test: with + from 0 over the images [s + 1, s], every processor
      gets [p(p+1)/2, (p-1)p/2]. */
  lemma FoldlEachSum(p: nat)
    ensures forall s | 0 <= s < p ::
      && FoldlEach(ShiftedPairs(p), 2, Plus, 0, 0)[s][0] == p * (p + 1) / 2
      && FoldlEach(ShiftedPairs(p), 2, Plus, 0, 0)[s][1] == (p - 1) * p / 2
  {
    assert Column(ShiftedPairs(p), 2, 0) == Successors(p);
    assert Column(ShiftedPairs(p), 2, 1) == seq(p, s requires 0 <= s < p => s);
    SumSuccessors(p);
    SumIndices(p);
  }
}

=== FILE: coarrays.dfy ===
/** Coarrays: a distributed array with one local image per processor. Local
    indexing touches only the caller's own image and issues nothing; remote
    writes and reads (`xs(t)[i] = v`, `xs(t)[i].get()`, slice writes) only
    join the outbox and take effect at the next sync. */
module Coarrays {
  import opened Wrappers
  import opened Futures
  import opened Superstep

  /** The half-open index range [first, last) of a remote image. */
  datatype Slice = Slice(first: int, last: int)

  function Min(a: int, b: int): int {
    if a <= b then a else b
  }

  /** The default-value constructor's fill loop over the local storage the
      array layer hands out: afterwards every element is `d`. */
  method FillImage<T>(storage: seq<T>, d: T) returns (image: seq<T>)
    ensures |image| == |storage|
    ensures forall i | 0 <= i < |image| :: image[i] == d
  {
    image := storage;
    for i := 0 to |storage|
      invariant |image| == |storage|
      invariant forall k | 0 <= k < i :: image[k] == d
    {
      image := image[i := d];
    }
  }

  /** Every processor registers the coarray with its own arguments:
      processor s asks for `sizes[s]` elements, each set to `defaults[s]`.
      For the default-value constructor `defaults[s]` is the value processor s
      passed; for the plain constructor it stands for the initial contents the
      array layer hands out (`zero`), which this model does not see. The
      outbox starts empty. */
  function Create<T>(sizes: seq<nat>, defaults: seq<T>, heap: Heap<T>): (st: State<T>)
    requires |defaults| == |sizes|
    ensures |st.images| == |sizes| && st.outbox == [] && st.heap == heap
    ensures forall s | 0 <= s < |sizes| :: |st.images[s]| == sizes[s]
    ensures forall s, i | 0 <= s < |sizes| && 0 <= i < |st.images[s]| :: st.images[s][i] == defaults[s]
  {
    State(seq(|sizes|, s requires 0 <= s < |sizes| => seq(sizes[s], _ => defaults[s])), [], heap)
  }

  /** `size()`: the length of processor s's own image; there is no global size. */
  function Size<T>(st: State<T>, s: nat): nat
    requires s < |st.images|
  {
    |st.images[s]|
  }

  /** `empty()`. */
  predicate Empty<T>(st: State<T>, s: nat)
    requires s < |st.images|
  {
    Size(st, s) == 0
  }

  /** A freshly created coarray reports each processor's requested size, and
      no superstep ever changes a size: puts overwrite, they never grow or
      shrink an image. */
  lemma SizeIsLocal<T>(sizes: seq<nat>, defaults: seq<T>, heap: Heap<T>, s: nat, ops: seq<Op<T>>)
    requires |defaults| == |sizes| && s < |sizes|
    ensures Size(Create(sizes, defaults, heap), s) == sizes[s]
    ensures Empty(Create(sizes, defaults, heap), s) <==> sizes[s] == 0
    ensures var st := Enqueue(Create(sizes, defaults, heap), ops);
      Sync(st).Success? ==> Size(Sync(st).value, s) == sizes[s]
  {
  }

  /** Local `xs[i]` read by processor s. */
  function LocalRead<T>(st: State<T>, s: nat, i: int): T
    requires s < |st.images| && 0 <= i < |st.images[s]|
  {
    st.images[s][i]
  }

  /** Local `xs[i] = v` by processor s: element i of its own image changes at
      once, nothing else does and nothing is queued. */
  function LocalWrite<T>(st: State<T>, s: nat, i: int, v: T): (r: State<T>)
    requires s < |st.images| && 0 <= i < |st.images[s]|
    ensures r.outbox == st.outbox && r.heap == st.heap
    ensures |r.images| == |st.images| && |r.images[s]| == |st.images[s]|
    ensures LocalRead(r, s, i) == v
    ensures forall u, j | 0 <= u < |st.images| && 0 <= j < |st.images[u]| && (u != s || j != i) ::
      |r.images[u]| == |st.images[u]| && r.images[u][j] == st.images[u][j]
  {
    State(st.images[s := st.images[s][i := v]], st.outbox, st.heap)
  }

  /** `put(t, idx, value)`, also `xs(t)[idx] = value`: one write of one element. */
  function Put<T>(st: State<T>, t: int, idx: int, v: T): (r: State<T>)
    ensures r.images == st.images && r.heap == st.heap
    ensures forall u, j :: LastWrite(r.outbox, u, j) ==
             if u == t && j == idx then Some(v) else LastWrite(st.outbox, u, j)
  {
    var op := PutOp(t, idx, [v]);
    AppendWrites(st.outbox, [op]);
    SingleWrites(op);
    Enqueue(st, [op])
  }

  /** `put(processor, first, last, offset)`: the range is written from `offset` on. */
  function PutRange<T>(st: State<T>, t: int, values: seq<T>, offset: int): (r: State<T>)
    ensures r.images == st.images && r.heap == st.heap
    ensures forall u, j :: LastWrite(r.outbox, u, j) ==
             if u == t && offset <= j < offset + |values| then Some(values[j - offset]) else LastWrite(st.outbox, u, j)
  {
    var op := PutOp(t, offset, values);
    AppendWrites(st.outbox, [op]);
    SingleWrites(op);
    Enqueue(st, [op])
  }

  /** `get(t, idx)`, also `xs(t)[idx].get()`: a new future bound to processor
      `owner`, holding the value-initialised `init` until the sync that answers
      the queued read; the images are untouched. */
  function Get<T>(st: State<T>, owner: nat, t: int, idx: int, init: T): (r: (State<T>, Future))
    requires HeapWf(st.heap)
    ensures r.1.world == owner && Owns(r.0.heap, r.1) && r.1.buffer.value !in st.heap.cells
    ensures Value(r.0.heap, r.1) == init && !Resolved(r.0.heap, r.1)
    ensures r.0.images == st.images
    ensures r.0.outbox == st.outbox + [GetOp(t, idx, r.1.buffer.value)]
    ensures Wf(st) ==> Wf(r.0)
    ensures forall g | Owns(st.heap, g) :: Owns(r.0.heap, g) && Value(r.0.heap, g) == Value(st.heap, g)
  {
    var (heap, f) := NewFuture(st.heap, owner, init);
    (State(st.images, st.outbox + [GetOp(t, idx, f.buffer.value)], heap), f)
  }

  /** A put is invisible until sync; after sync the put issued last wins over
      every earlier put to the same cell, and every other cell ends as it
      would have without it. */
  lemma PutLastWins<T>(st: State<T>, t: int, idx: int, v: T)
    requires 0 <= t < |st.images|
    ensures Put(st, t, idx, v).images == st.images
    ensures Sync(Put(st, t, idx, v)).Success? <==> Sync(st).Success? && 0 <= idx < |st.images[t]|
    ensures Sync(Put(st, t, idx, v)).Success? ==>
      && Sync(Put(st, t, idx, v)).value.images[t][idx] == v
      && forall u, j | 0 <= u < |st.images| && 0 <= j < |st.images[u]| && (u != t || j != idx) ::
           Sync(Put(st, t, idx, v)).value.images[u][j] == Sync(st).value.images[u][j]
  {
    var ops := [PutOp(t, idx, [v])];
    if Sync(Put(st, t, idx, v)).Success? {
      SyncAppended(st, ops);
    }
    if Sync(st).Success? && 0 <= idx < |st.images[t]| {
      assert AllInRange(st.images, ops);
      AllInRangeAppend(st.images, st.outbox, ops);
    }
  }

  /** Writing one element past the end of the target image is refused at sync,
      for a put and for a get alike. */
  lemma OffByOneRefused<T>(st: State<T>, owner: nat, t: int, v: T)
    requires HeapWf(st.heap) && 0 <= t < |st.images|
    ensures Sync(Put(st, t, |st.images[t]|, v)) == Failure(IndexOutOfRange)
    ensures Sync(Get(st, owner, t, |st.images[t]|, v).0) == Failure(IndexOutOfRange)
  {
    var k := |st.outbox|;
    assert !InRange(st.images, Put(st, t, |st.images[t]|, v).outbox[k]);
    assert !InRange(st.images, Get(st, owner, t, |st.images[t]|, v).0.outbox[k]);
  }

  /** Round trip: a value put to (t, i) in any addressable superstep, synced,
      then read back with a get and a second sync, is what the future holds,
      and the future is resolved. Earlier puts to the same cell lose. */
  lemma RoundTrip<T>(st: State<T>, owner: nat, t: int, i: int, x: T, init: T)
    requires Wf(st) && Addressable(st)
    requires 0 <= t < |st.images| && 0 <= i < |st.images[t]|
    ensures Sync(Put(st, t, i, x)).Success?
    ensures var s1 := Sync(Put(st, t, i, x)).value;
      Wf(s1) &&
      var (s2, f) := Get(s1, owner, t, i, init);
      && Sync(s2).Success?
      && Owns(Sync(s2).value.heap, f)
      && Resolved(Sync(s2).value.heap, f)
      && Value(Sync(s2).value.heap, f) == x
  {
    PutLastWins(st, t, i, x);
    var p1 := Put(st, t, i, x);
    var k := |st.outbox|;
    assert p1.outbox[k] == PutOp(t, i, [x]);
    assert forall l | 0 <= l < k :: p1.outbox[l] == st.outbox[l];
    assert Wf(p1);
    SyncAnswersGets(p1);
    var s1 := Sync(p1).value;
    assert s1.images[t][i] == x;
    var (s2, f) := Get(s1, owner, t, i, init);
    assert s2.outbox == [GetOp(t, i, f.buffer.value)];
    assert InRange(s2.images, s2.outbox[0]);
    SyncAnswersGets(s2);
    LastWriteSingle(s2.outbox[0], t, i);
    assert Sync(s2).value.images[t][i] == x;
  }

  /** The scalar slice assignment `xs(t)[{first, last}] = value`: one
      single-element put per index of [first, last), ascending. */
  function FillOps<T>(t: int, first: int, last: int, v: T): seq<Op<T>>
    decreases last - first
  {
    if last <= first then [] else [PutOp(t, first, [v])] + FillOps(t, first + 1, last, v)
  }

  function FillSlice<T>(st: State<T>, t: int, s: Slice, v: T): (r: State<T>)
    ensures r.images == st.images && r.heap == st.heap
    ensures forall u, j :: LastWrite(r.outbox, u, j) ==
             if u == t && s.first <= j < s.last then Some(v) else LastWrite(st.outbox, u, j)
  {
    var ops := FillOps(t, s.first, s.last, v);
    AppendWrites(st.outbox, ops);
    FillOpsWrites(t, s.first, s.last, v);
    Enqueue(st, ops)
  }

  lemma FillOpsWrites<T>(t: int, first: int, last: int, v: T)
    ensures forall u, j :: LastWrite(FillOps(t, first, last, v), u, j) ==
             if u == t && first <= j < last then Some(v) else None
  {
    forall u, j ensures LastWrite(FillOps(t, first, last, v), u, j) ==
      if u == t && first <= j < last then Some(v) else None
    {
      FillOpsWrite(t, first, last, v, u, j);
    }
  }

  /** The scalar slice writes `v` to exactly the indices of [first, last) of
      image t: an empty or reversed slice writes nothing. */
  lemma {:induction false} FillOpsWrite<T>(t: int, first: int, last: int, v: T, u: int, j: int)
    ensures LastWrite(FillOps(t, first, last, v), u, j) == if u == t && first <= j < last then Some(v) else None
    ensures |FillOps(t, first, last, v)| == if last <= first then 0 else last - first
    decreases last - first
  {
    if first < last {
      var head: seq<Op<T>> := [PutOp(t, first, [v])];
      FillOpsWrite(t, first + 1, last, v, u, j);
      LastWriteAppend(head, FillOps(t, first + 1, last, v), u, j);
    }
  }

  /** After sync, the scalar slice leaves `v` at every index of the slice and
      leaves every other cell as the rest of the superstep made it. */
  lemma FillSliceEffect<T>(st: State<T>, t: int, s: Slice, v: T)
    requires Sync(FillSlice(st, t, s, v)).Success?
    ensures Sync(st).Success?
    ensures forall u, j | 0 <= u < |st.images| && 0 <= j < |st.images[u]| ::
      Sync(FillSlice(st, t, s, v)).value.images[u][j] ==
        if u == t && s.first <= j < s.last then v else Sync(st).value.images[u][j]
  {
    SyncAppended(st, FillOps(t, s.first, s.last, v));
    forall u, j | 0 <= u < |st.images| && 0 <= j < |st.images[u]|
      ensures LastWrite(FillOps(t, s.first, s.last, v), u, j) == if u == t && s.first <= j < s.last then Some(v) else None
    {
      FillOpsWrite(t, s.first, s.last, v, u, j);
    }
  }

  /** The chunks the vector slice put issues from index `i` on: while
      `last - i` is not negative, a put of the first min(last - i, n) values at
      `i`, then `i` advances by n = |values|. The loop only ends for a
      non-empty source unless the slice is reversed from the start. */
  function Chunks<T>(t: int, i: int, last: int, values: seq<T>): seq<Op<T>>
    requires |values| > 0 || last < i
    decreases if last < i then 0 else last - i + 1
  {
    if last - i < 0 then []
    else [PutOp(t, i, values[..Min(last - i, |values|)])] + Chunks(t, i + |values|, last, values)
  }

  /** `put(processor, s, values)`, the loop as written: the index runs from
      `first` in steps of |values| and every round issues one chunk. */
  method SliceChunks<T>(t: int, s: Slice, values: seq<T>) returns (ops: seq<Op<T>>)
    requires |values| > 0 || s.last < s.first
    ensures ops == Chunks(t, s.first, s.last, values)
    ensures |values| > 0 ==> forall u, j :: LastWrite(ops, u, j) ==
                              if u == t && s.first <= j < s.last then Some(values[(j - s.first) % |values|]) else None
    ensures |values| == 0 ==> ops == []
  {
    ops := [];
    var i := s.first;
    while true
      invariant |values| > 0 || s.last < i
      invariant ops + Chunks(t, i, s.last, values) == Chunks(t, s.first, s.last, values)
      decreases if s.last < i then 0 else s.last - i + 1
    {
      var remaining := s.last - i;
      if remaining < 0 {
        break;
      }
      if remaining > |values| {
        remaining := |values|;
      }
      assert Chunks(t, i, s.last, values) ==
        [PutOp(t, i, values[..remaining])] + Chunks(t, i + |values|, s.last, values);
      ops := ops + [PutOp(t, i, values[..remaining])];
      i := i + |values|;
    }
    assert Chunks(t, i, s.last, values) == [];
    assert ops == Chunks(t, s.first, s.last, values);
    if |values| > 0 {
      ChunksWrites(t, s.first, s.last, values);
    }
  }

  /** The vector slice assignment `xs(t)[s] = values`. */
  function PutSlice<T>(st: State<T>, t: int, s: Slice, values: seq<T>): (r: State<T>)
    requires |values| > 0 || s.last < s.first
    ensures r.images == st.images && r.heap == st.heap
    ensures |values| > 0 ==> forall u, j :: LastWrite(r.outbox, u, j) ==
                              if u == t && s.first <= j < s.last then Some(values[(j - s.first) % |values|]) else LastWrite(st.outbox, u, j)
    ensures |values| == 0 ==> r == st
  {
    var ops := Chunks(t, s.first, s.last, values);
    AppendWrites(st.outbox, ops);
    if |values| > 0 then
      ChunksWrites(t, s.first, s.last, values);
      Enqueue(st, ops)
    else
      assert st.outbox + ops == st.outbox;
      Enqueue(st, ops)
  }

  lemma ChunksWrites<T>(t: int, i: int, last: int, values: seq<T>)
    requires |values| > 0
    ensures forall u, j :: LastWrite(Chunks(t, i, last, values), u, j) ==
             if u == t && i <= j < last then Some(values[(j - i) % |values|]) else None
  {
    forall u, j ensures LastWrite(Chunks(t, i, last, values), u, j) ==
      if u == t && i <= j < last then Some(values[(j - i) % |values|]) else None
    {
      ChunksWrite(t, i, last, values, u, j);
    }
  }

  lemma {:induction false} MulAtLeast(d: int, n: int)
    requires d >= 1 && n >= 0
    ensures d * n >= n
    decreases d
  {
    if d > 1 {
      MulAtLeast(d - 1, n);
      assert d * n == (d - 1) * n + n;
    }
  }

  lemma DivModUnique(a: int, n: int, q: int, r: int)
    requires n > 0 && 0 <= r < n && a == q * n + r
    ensures a / n == q && a % n == r
  {
    var q0, r0 := a / n, a % n;
    assert a == q0 * n + r0;
    if q0 < q {
      assert (q - q0) * n == q * n - q0 * n;
      MulAtLeast(q - q0, n);
    } else if q < q0 {
      assert (q0 - q) * n == q0 * n - q * n;
      MulAtLeast(q0 - q, n);
    }
  }

  lemma DivModStep(a: int, n: int)
    requires n > 0 && a >= n
    ensures (a - n) / n == a / n - 1 && (a - n) % n == a % n
  {
    DivModUnique(a, n, (a - n) / n + 1, (a - n) % n);
  }

  /** Shape of the chunks: ascending, contiguous, each at most |values| long;
      there are (last - i) / n + 1 of them and the trailing one holds
      (last - i) % n elements, so it is empty exactly when n divides the slice
      length (in particular a put of no elements at `last`). A reversed slice
      issues nothing. */
  lemma {:induction false} ChunksShape<T>(t: int, i: int, last: int, values: seq<T>)
    requires |values| > 0
    ensures var ops := Chunks(t, i, last, values); var n := |values|;
      && (last < i ==> ops == [])
      && (forall k | 0 <= k < |ops| ::
            && ops[k].PutOp? && ops[k].target == t
            && |ops[k].values| == Min(n, last - ops[k].offset)
            && ops[k].values == values[..|ops[k].values|])
      && (i <= last ==> |ops| == (last - i) / n + 1 && |ops[|ops| - 1].values| == (last - i) % n)
      && (|ops| > 0 ==> ops[0].offset == i)
      && (forall k | 0 <= k < |ops| - 1 :: ops[k + 1].offset == ops[k].offset + |ops[k].values|)
    decreases if last < i then 0 else last - i + 1
  {
    var n := |values|;
    if i <= last {
      var ops := Chunks(t, i, last, values);
      var rest := Chunks(t, i + n, last, values);
      ChunksShape(t, i + n, last, values);
      assert ops == [ops[0]] + rest;
      if last < i + n {
        assert (last - i) / n == 0 && (last - i) % n == last - i;
      } else {
        DivModStep(last - i, n);
        assert ops[|ops| - 1] == rest[|rest| - 1];
        assert |ops[0].values| == n;
      }
      forall k | 0 <= k < |ops| - 1 ensures ops[k + 1].offset == ops[k].offset + |ops[k].values| {
        if k > 0 {
          assert ops[k] == rest[k - 1] && ops[k + 1] == rest[k];
        }
      }
    }
  }

  /** The cyclic fill: after the chunks, index `i + k` of image t holds
      values[k % n] for 0 <= k < last - i, and no other cell is written. */
  lemma {:induction false} ChunksWrite<T>(t: int, i: int, last: int, values: seq<T>, u: int, j: int)
    requires |values| > 0
    ensures LastWrite(Chunks(t, i, last, values), u, j) ==
      if u == t && i <= j < last then Some(values[(j - i) % |values|]) else None
    decreases if last < i then 0 else last - i + 1
  {
    var n := |values|;
    if i <= last {
      var head: seq<Op<T>> := [PutOp(t, i, values[..Min(last - i, n)])];
      var rest := Chunks(t, i + n, last, values);
      assert Chunks(t, i, last, values) == head + rest;
      ChunksWrite(t, i + n, last, values, u, j);
      LastWriteAppend(head, rest, u, j);
      LastWriteSingle(head[0], u, j);
      if u == t && i + n <= j < last {
        DivModStep(j - i, n);
      } else if u == t && i <= j < last {
        DivModUnique(j - i, n, 0, j - i);
      }
    }
  }

  /** After sync, a vector slice put leaves values[k % n] at index first + k of
      image t for every 0 <= k < last - first, and every other cell as the
      rest of the superstep made it. */
  lemma PutSliceEffect<T>(st: State<T>, t: int, s: Slice, values: seq<T>)
    requires |values| > 0
    requires Sync(PutSlice(st, t, s, values)).Success?
    ensures Sync(st).Success?
    ensures forall u, j | 0 <= u < |st.images| && 0 <= j < |st.images[u]| ::
      Sync(PutSlice(st, t, s, values)).value.images[u][j] ==
        if u == t && s.first <= j < s.last then values[(j - s.first) % |values|]
        else Sync(st).value.images[u][j]
  {
    SyncAppended(st, Chunks(t, s.first, s.last, values));
    forall u, j | 0 <= u < |st.images| && 0 <= j < |st.images[u]|
      ensures LastWrite(Chunks(t, s.first, s.last, values), u, j) ==
        if u == t && s.first <= j < s.last then Some(values[(j - s.first) % |values|]) else None
    {
      ChunksWrite(t, s.first, s.last, values, u, j);
    }
  }

  /** A range put writes values[k] at offset + k of image t, and nothing else. */
  lemma PutRangeEffect<T>(st: State<T>, t: int, values: seq<T>, offset: int)
    requires Sync(PutRange(st, t, values, offset)).Success?
    ensures Sync(st).Success?
    ensures forall u, j | 0 <= u < |st.images| && 0 <= j < |st.images[u]| ::
      Sync(PutRange(st, t, values, offset)).value.images[u][j] ==
        if u == t && offset <= j < offset + |values| then values[j - offset]
        else Sync(st).value.images[u][j]
  {
    SyncAppended(st, [PutOp(t, offset, values)]);
  }

  /** The documented example `xs(t)[{2, 10}] = {3, 2, 4}` issues chunks of
      3, 3 and 2 elements at 2, 5 and 8. */
  lemma ChunksExample()
    ensures Chunks(0, 2, 10, [3, 2, 4]) ==
      [PutOp(0, 2, [3, 2, 4]), PutOp(0, 5, [3, 2, 4]), PutOp(0, 8, [3, 2])]
  {
    var values := [3, 2, 4];
    assert values[..Min(10 - 8, 3)] == [3, 2];
    assert values[..Min(10 - 2, 3)] == values;
    assert values[..Min(10 - 5, 3)] == values;
    assert Chunks(0, 11, 10, values) == [];
    assert Chunks(0, 8, 10, values) == [PutOp(0, 8, [3, 2])];
    assert Chunks(0, 5, 10, values) == [PutOp(0, 5, values), PutOp(0, 8, [3, 2])];
  }

  /** The same example after sync turns an image of twelve zeros into
      0, 0, 3, 2, 4, 3, 2, 4, 3, 2, 0, 0. */
  lemma SliceExample()
    ensures var st := PutSlice(Create([12], [0], EmptyHeap()), 0, Slice(2, 10), [3, 2, 4]);
      Sync(st).Success? && Sync(st).value.images == [[0, 0, 3, 2, 4, 3, 2, 4, 3, 2, 0, 0]]
  {
    var values := [3, 2, 4];
    var st := Create([12], [0], EmptyHeap());
    var p := PutSlice(st, 0, Slice(2, 10), values);
    ChunksExample();
    assert AllInRange(p.images, p.outbox);
    var after := Sync(p).value;
    PutSliceEffect(st, 0, Slice(2, 10), values);
    var expected := [0, 0, 3, 2, 4, 3, 2, 4, 3, 2, 0, 0];
    forall j | 0 <= j < 12 ensures after.images[0][j] == expected[j] {
      if 2 <= j < 5 {
        DivModUnique(j - 2, 3, 0, j - 2);
      } else if 5 <= j < 8 {
        DivModUnique(j - 2, 3, 1, j - 5);
      } else if 8 <= j < 10 {
        DivModUnique(j - 2, 3, 2, j - 8);
      }
    }
    assert after.images[0] == expected;
  }

  /** When |values| divides the slice length, the trailing chunk is a put of
      no elements at `last`. */
  lemma {:induction false} ChunksTrailing<T>(t: int, i: int, last: int, values: seq<T>)
    requires |values| > 0 && i <= last && (last - i) % |values| == 0
    ensures var ops := Chunks(t, i, last, values);
      |ops| > 0 && ops[|ops| - 1] == PutOp(t, last, [])
    decreases last - i
  {
    var n := |values|;
    var ops := Chunks(t, i, last, values);
    if last == i {
      assert values[..Min(0, n)] == [];
      assert Chunks(t, i + n, last, values) == [];
      assert ops == [PutOp(t, i, [])];
    } else {
      DivModStep(last - i, n);
      ChunksTrailing(t, i + n, last, values);
      var rest := Chunks(t, i + n, last, values);
      assert ops == [ops[0]] + rest;
      assert ops[|ops| - 1] == rest[|rest| - 1];
    }
  }

  /** A slice whose length n divides issues a trailing put of no elements at
      `last`: {0, 6} with three values gives chunks at 0, 3 and 6. */
  lemma TrailingChunkExample()
    ensures Chunks(0, 0, 6, [1, 2, 3]) ==
      [PutOp(0, 0, [1, 2, 3]), PutOp(0, 3, [1, 2, 3]), PutOp(0, 6, [])]
  {
    assert [1, 2, 3][..Min(0, 3)] == [];
    assert [1, 2, 3][..Min(6, 3)] == [1, 2, 3];
  }

  /** The k-th put of the scalar slice writes index first + k. */
  lemma {:induction false} FillOpsAt<T>(t: int, first: int, last: int, v: T)
    ensures |FillOps(t, first, last, v)| == if last <= first then 0 else last - first
    ensures forall k | 0 <= k < |FillOps(t, first, last, v)| :: FillOps(t, first, last, v)[k] == PutOp(t, first + k, [v])
    decreases last - first
  {
    if first < last {
      FillOpsAt(t, first + 1, last, v);
      var ops := FillOps(t, first, last, v);
      assert ops == [PutOp(t, first, [v])] + FillOps(t, first + 1, last, v);
    }
  }

  /** The sync after a scalar slice assignment succeeds exactly when the rest
      of the superstep is acceptable and the slice is empty or lies inside an
      existing image. */
  lemma FillSliceAccepted<T>(st: State<T>, t: int, s: Slice, v: T)
    ensures Sync(FillSlice(st, t, s, v)).Success? <==>
      && Addressable(st)
      && (s.last <= s.first || (0 <= t < |st.images| && 0 <= s.first && s.last <= |st.images[t]|))
  {
    var ops := FillOps(t, s.first, s.last, v);
    SyncEnqueueAccepted(st, ops);
    FillOpsAt(t, s.first, s.last, v);
    if s.first < s.last && AllInRange(st.images, ops) {
      FillOpsWrite(t, s.first, s.last, v, t, s.first);
      FillOpsWrite(t, s.first, s.last, v, t, s.last - 1);
      CoveredInRange(st.images, ops, t, s.first);
      CoveredInRange(st.images, ops, t, s.last - 1);
    }
  }

  /** Every chunk from index i on targets t, starts at or after i and ends at
      or before `last`. */
  lemma {:induction false} ChunksInside<T>(t: int, i: int, last: int, values: seq<T>)
    requires |values| > 0
    ensures forall k | 0 <= k < |Chunks(t, i, last, values)| ::
      var op := Chunks(t, i, last, values)[k];
      op.PutOp? && op.target == t && i <= op.offset && op.offset + |op.values| <= last
    decreases if last < i then 0 else last - i + 1
  {
    if i <= last {
      var n := |values|;
      ChunksInside(t, i + n, last, values);
      var ops := Chunks(t, i, last, values);
      var rest := Chunks(t, i + n, last, values);
      assert ops == [PutOp(t, i, values[..Min(last - i, n)])] + rest;
      forall k | 0 <= k < |ops|
        ensures ops[k].PutOp? && ops[k].target == t && i <= ops[k].offset && ops[k].offset + |ops[k].values| <= last
      {
        if k > 0 {
          assert ops[k] == rest[k - 1];
        }
      }
    }
  }

  /** The sync after a vector slice put succeeds exactly when the rest of the
      superstep is acceptable and either the slice is reversed (nothing is
      issued), or the target exists and the slice is empty or lies inside
      its image. */
  lemma PutSliceAccepted<T>(st: State<T>, t: int, s: Slice, values: seq<T>)
    requires |values| > 0
    ensures Sync(PutSlice(st, t, s, values)).Success? <==>
      && Addressable(st)
      && (s.last < s.first ||
          (0 <= t < |st.images| && (s.first == s.last || (0 <= s.first && s.last <= |st.images[t]|))))
  {
    var ops := Chunks(t, s.first, s.last, values);
    SyncEnqueueAccepted(st, ops);
    ChunksInside(t, s.first, s.last, values);
    ChunksShape(t, s.first, s.last, values);
    if s.first <= s.last && AllInRange(st.images, ops) {
      assert InRange(st.images, ops[0]);
      if s.first < s.last {
        ChunksWrite(t, s.first, s.last, values, t, s.first);
        ChunksWrite(t, s.first, s.last, values, t, s.last - 1);
        CoveredInRange(st.images, ops, t, s.first);
        CoveredInRange(st.images, ops, t, s.last - 1);
      }
    }
    if Addressable(st) && 0 <= t < |st.images| && s.first <= s.last
       && (s.first == s.last || (0 <= s.first && s.last <= |st.images[t]|)) {
      forall k | 0 <= k < |ops| ensures InRange(st.images, ops[k]) {
        if s.first == s.last {
          assert |ops[k].values| == 0;
        }
      }
    }
  }

  /** The sync after a range put succeeds exactly when the rest of the
      superstep is acceptable, the target exists, and the range is empty or
      lies inside its image. */
  lemma PutRangeAccepted<T>(st: State<T>, t: int, values: seq<T>, offset: int)
    ensures Sync(PutRange(st, t, values, offset)).Success? <==>
      && Addressable(st) && 0 <= t < |st.images|
      && (|values| == 0 || (0 <= offset && offset + |values| <= |st.images[t]|))
  {
    var op := PutOp(t, offset, values);
    SyncEnqueueAccepted(st, [op]);
    assert AllInRange(st.images, [op]) <==> InRange(st.images, op);
  }
}

=== FILE: folds.dfy ===
/** Left folds: the accumulation loops of the collective algorithms
    (`for t ...: f(result, images[t])`, where `f` updates its left argument in
    place) are modelled with `f` returning the new left value. */
module Folds {

  /** FoldL(f, z, [x0, x1, x2]) == f(f(f(z, x0), x1), x2). */
  function FoldL<S, T>(f: (S, T) -> S, start: S, xs: seq<T>): S
    decreases |xs|
  {
    if |xs| == 0 then start else f(FoldL(f, start, xs[..|xs| - 1]), xs[|xs| - 1])
  }

  /** The in-place accumulation loop: `acc` starts at `start` and `f` is
      applied to it and each element in ascending order. */
  method Accumulate<S, T>(f: (S, T) -> S, start: S, xs: seq<T>) returns (acc: S)
    ensures acc == FoldL(f, start, xs)
  {
    acc := start;
    for k := 0 to |xs|
      invariant acc == FoldL(f, start, xs[..k])
    {
      assert xs[..k + 1][..k] == xs[..k];
      acc := f(acc, xs[k]);
    }
    assert xs[..|xs|] == xs;
  }

  /** Folding a concatenation folds the second part from where the first stopped. */
  lemma {:induction false} FoldLAppend<S, T>(f: (S, T) -> S, start: S, xs: seq<T>, ys: seq<T>)
    ensures FoldL(f, start, xs + ys) == FoldL(f, FoldL(f, start, xs), ys)
    decreases |ys|
  {
    if |ys| == 0 {
      assert xs + ys == xs;
    } else {
      var ys' := ys[..|ys| - 1];
      assert (xs + ys)[..|xs + ys| - 1] == xs + ys';
      FoldLAppend(f, start, xs, ys');
    }
  }

  /** All images laid end to end, processor 0 first. */
  function Concat<T>(xss: seq<seq<T>>): seq<T>
    decreases |xss|
  {
    if |xss| == 0 then [] else Concat(xss[..|xss| - 1]) + xss[|xss| - 1]
  }

  ghost predicate Associative<T(!new)>(f: (T, T) -> T) {
    forall a, b, c :: f(f(a, b), c) == f(a, f(b, c))
  }

  ghost predicate Identity<T(!new)>(f: (T, T) -> T, e: T) {
    forall a :: f(e, a) == a && f(a, e) == a
  }

  /** With an associative `f` whose identity is `e`, a fold from any `a` is
      `a` combined with the fold from `e`. */
  lemma {:induction false} FoldLFromIdentity<T(!new)>(f: (T, T) -> T, e: T, a: T, xs: seq<T>)
    requires Associative(f) && Identity(f, e)
    ensures FoldL(f, a, xs) == f(a, FoldL(f, e, xs))
    decreases |xs|
  {
    if |xs| == 0 {
    } else {
      var xs' := xs[..|xs| - 1];
      FoldLFromIdentity(f, e, a, xs');
      assert FoldL(f, a, xs) == f(f(a, FoldL(f, e, xs')), xs[|xs| - 1]);
    }
  }

  /** Folding every part and then folding the partial results gives the fold
      of the whole, when `f` is associative with identity `e`. */
  lemma {:induction false} FoldLOfFolds<T(!new)>(f: (T, T) -> T, e: T, xss: seq<seq<T>>)
    requires Associative(f) && Identity(f, e)
    ensures FoldL(f, e, seq(|xss|, t requires 0 <= t < |xss| => FoldL(f, e, xss[t]))) == FoldL(f, e, Concat(xss))
    decreases |xss|
  {
    if |xss| == 0 {
    } else {
      var n := |xss| - 1;
      var partial := seq(|xss|, t requires 0 <= t < |xss| => FoldL(f, e, xss[t]));
      var partial' := seq(n, t requires 0 <= t < n => FoldL(f, e, xss[..n][t]));
      assert partial[..n] == partial';
      FoldLOfFolds(f, e, xss[..n]);
      FoldLAppend(f, e, Concat(xss[..n]), xss[n]);
      FoldLFromIdentity(f, e, FoldL(f, e, Concat(xss[..n])), xss[n]);
    }
  }
}

=== FILE: futures.dfy ===
/** Futures: a handle to one heap buffer that a get fills at the next sync.
    A future is move-only: there is no copy operation, a move hands the buffer
    to another handle and leaves the source without one, so at most one live
    handle ever names a given buffer. */
module Futures {
  import opened Wrappers

  type BufferId = nat

  /** One buffer: what it holds now, and whether the sync answering the get
      that created it has completed. */
  datatype Cell<T> = Cell(content: T, resolved: bool)

  /** Every buffer allocated so far; `next` is the id the next allocation gets. */
  datatype Heap<T> = Heap(cells: map<BufferId, Cell<T>>, next: BufferId)

  /** A future bound to processor `world`; `buffer` is None once it was moved from. */
  datatype Future = Future(world: nat, buffer: Option<BufferId>)

  function EmptyHeap<T>(): Heap<T> {
    Heap(map[], 0)
  }

  predicate HeapWf<T>(h: Heap<T>) {
    forall id | id in h.cells :: id < h.next
  }

  /** The future holds a buffer that exists in the heap. */
  predicate Owns<T>(h: Heap<T>, f: Future) {
    f.buffer.Some? && f.buffer.value in h.cells
  }

  /** No two live handles share a buffer. */
  predicate DistinctBuffers(live: seq<Future>) {
    forall i, j | 0 <= i < |live| && 0 <= j < |live| && i != j && live[i].buffer.Some? ::
      live[i].buffer != live[j].buffer
  }

  /** The ownership invariant over the futures user code holds. */
  predicate Owned<T>(h: Heap<T>, live: seq<Future>) {
    && HeapWf(h)
    && DistinctBuffers(live)
    && forall i | 0 <= i < |live| && live[i].buffer.Some? :: live[i].buffer.value in h.cells
  }

  /** `value()`: the content of the single buffer the future designates. */
  function Value<T>(h: Heap<T>, f: Future): T
    requires Owns(h, f)
  {
    h.cells[f.buffer.value].content
  }

  predicate Resolved<T>(h: Heap<T>, f: Future)
    requires Owns(h, f)
  {
    h.cells[f.buffer.value].resolved
  }

  /** `future(world)`: a handle bound to `world` with a fresh buffer holding
      the value-initialised `init`, not yet resolved. */
  function NewFuture<T>(h: Heap<T>, world: nat, init: T): (r: (Heap<T>, Future))
    requires HeapWf(h)
    ensures r.1.world == world && Owns(r.0, r.1) && r.1.buffer.value !in h.cells
    ensures HeapWf(r.0) && r.0.cells.Keys == h.cells.Keys + {r.1.buffer.value}
    ensures Value(r.0, r.1) == init && !Resolved(r.0, r.1)
    ensures forall g | Owns(h, g) :: Owns(r.0, g) && h.cells[g.buffer.value] == r.0.cells[g.buffer.value]
  {
    (Heap(h.cells[h.next := Cell(init, false)], h.next + 1), Future(world, Some(h.next)))
  }

  /** Writing through the reference `value()` returns. */
  function Write<T>(h: Heap<T>, f: Future, x: T): (r: Heap<T>)
    requires Owns(h, f)
    ensures Owns(r, f) && Value(r, f) == x && Resolved(r, f) == Resolved(h, f)
    ensures r.cells.Keys == h.cells.Keys && r.next == h.next
    ensures forall g | Owns(h, g) && g.buffer != f.buffer :: Owns(r, g) && r.cells[g.buffer.value] == h.cells[g.buffer.value]
  {
    var id := f.buffer.value;
    Heap(h.cells[id := Cell(x, h.cells[id].resolved)], h.next)
  }

  /** Move construction: a new handle keeps the source's world binding and
      takes its buffer; the source is left without one. */
  function MoveConstruct(live: seq<Future>, src: nat): (r: seq<Future>)
    requires src < |live|
    ensures |r| == |live| + 1
    ensures r[|live|].world == live[src].world && r[|live|].buffer == live[src].buffer
    ensures r[src].world == live[src].world && r[src].buffer.None?
    ensures forall i | 0 <= i < |live| && i != src :: r[i] == live[i]
  {
    live[src := Future(live[src].world, None)] + [live[src]]
  }

  /** Move assignment `live[dst] = std::move(live[src])`: the target keeps its
      world and takes the source's buffer, the source is left without one.
      Moving a handle onto itself keeps its buffer. */
  function MoveAssign(live: seq<Future>, dst: nat, src: nat): (r: seq<Future>)
    requires dst < |live| && src < |live|
    ensures |r| == |live|
    ensures r[dst].world == live[dst].world && r[dst].buffer == live[src].buffer
    ensures dst != src ==> r[src].world == live[src].world && r[src].buffer.None?
    ensures forall i | 0 <= i < |live| && i != dst && i != src :: r[i] == live[i]
  {
    if dst == src then live
    else live[src := Future(live[src].world, None)][dst := Future(live[dst].world, live[src].buffer)]
  }

  /** A new future never shares its buffer with a live one. */
  lemma NewFutureKeepsOwnership<T>(h: Heap<T>, live: seq<Future>, world: nat, init: T)
    requires Owned(h, live)
    ensures Owned(NewFuture(h, world, init).0, live + [NewFuture(h, world, init).1])
  {
    var (h', f) := NewFuture(h, world, init);
    var live' := live + [f];
    forall i | 0 <= i < |live'| && live'[i].buffer.Some?
      ensures live'[i].buffer.value in h'.cells
    {
      if i < |live| {
        assert live'[i] == live[i];
      }
    }
  }

  /** Moves never duplicate a buffer: with copying deleted, the ownership
      invariant survives every operation that creates or moves a handle. */
  lemma MovesKeepOwnership<T>(h: Heap<T>, live: seq<Future>, dst: nat, src: nat)
    requires Owned(h, live)
    requires dst < |live| && src < |live|
    ensures Owned(h, MoveConstruct(live, src))
    ensures Owned(h, MoveAssign(live, dst, src))
  {
    var c := MoveConstruct(live, src);
    forall i, j | 0 <= i < |c| && 0 <= j < |c| && i != j && c[i].buffer.Some?
      ensures c[i].buffer != c[j].buffer
    {
      var i' := if i == |live| then src else i;
      var j' := if j == |live| then src else j;
      assert c[i].buffer == live[i'].buffer;
      assert c[j].buffer == live[j'].buffer || c[j].buffer.None?;
    }
    var m := MoveAssign(live, dst, src);
    if dst != src {
      forall i, j | 0 <= i < |m| && 0 <= j < |m| && i != j && m[i].buffer.Some?
        ensures m[i].buffer != m[j].buffer
      {
        var i' := if i == dst then src else i;
        var j' := if j == dst then src else j;
        assert m[i].buffer == live[i'].buffer;
        assert m[j].buffer == live[j'].buffer || m[j].buffer.None?;
      }
      forall i | 0 <= i < |m| && m[i].buffer.Some?
        ensures m[i].buffer.value in h.cells
      {
        var i' := if i == dst then src else i;
        assert m[i].buffer == live[i'].buffer;
      }
    }
  }

  /** Writing through `value()` keeps the ownership invariant. */
  lemma WriteKeepsOwnership<T>(h: Heap<T>, live: seq<Future>, i: nat, x: T)
    requires Owned(h, live) && i < |live| && live[i].buffer.Some?
    ensures Owned(Write(h, live[i], x), live)
  {
  }

  /** Writing through one live future leaves every other live future's value
      alone: this is what unique ownership buys. */
  lemma WriteIsolated<T>(h: Heap<T>, live: seq<Future>, i: nat, j: nat, x: T)
    requires Owned(h, live)
    requires i < |live| && j < |live| && i != j
    requires live[i].buffer.Some? && live[j].buffer.Some?
    ensures Owns(Write(h, live[i], x), live[j])
    ensures Value(Write(h, live[i], x), live[j]) == Value(h, live[j])
    ensures Value(Write(h, live[i], x), live[i]) == x
  {
  }
}

=== FILE: superstep.dfy ===
/** The communication layer every coarray sits on, seen from all processors
    at once: each processor's local image of one coarray, the ordered outbox
    of remote operations issued since the last barrier, and the heap holding
    future buffers. A sync is one atomic step over all processors: it applies
    every queued put in issue order, then answers every queued get from the
    updated images, then empties the outbox. Nothing a put or get does is
    visible before that step. */
module Superstep {
  import opened Wrappers
  import opened Futures

  /** A remote operation waiting in the outbox.
      PutOp: write `values` into image `target`, starting at index `offset`.
      GetOp: read element `index` of image `target` into future buffer `buffer`. */
  datatype Op<T> =
    | PutOp(target: int, offset: int, values: seq<T>)
    | GetOp(target: int, index: int, buffer: BufferId)

  datatype Error = IndexOutOfRange

  /** The machine between two barriers; `images[s]` is processor s's image. */
  datatype State<T> = State(images: seq<seq<T>>, outbox: seq<Op<T>>, heap: Heap<T>)

  /** Issue operations: they join the end of the outbox, nothing else changes. */
  function Enqueue<T>(st: State<T>, ops: seq<Op<T>>): State<T>
  {
    State(st.images, st.outbox + ops, st.heap)
  }

  predicate Covers<T>(op: Op<T>, t: int, j: int) {
    op.PutOp? && op.target == t && op.offset <= j < op.offset + |op.values|
  }

  /** What the puts of a superstep mean for one cell: the value the last
      issued put covering index j of image t writes there, if any put does. */
  function LastWrite<T>(ops: seq<Op<T>>, t: int, j: int): Option<T>
    decreases |ops|
  {
    if |ops| == 0 then None
    else
      var op := ops[|ops| - 1];
      if Covers(op, t, j) then Some(op.values[j - op.offset])
      else LastWrite(ops[..|ops| - 1], t, j)
  }

  function Overwrite<T>(image: seq<T>, offset: int, values: seq<T>): seq<T>
  {
    seq(|image|, j requires 0 <= j < |image| =>
      if offset <= j < offset + |values| then values[j - offset] else image[j])
  }

  function ApplyPut<T>(images: seq<seq<T>>, op: Op<T>): seq<seq<T>>
  {
    if op.PutOp? && 0 <= op.target < |images|
    then images[op.target := Overwrite(images[op.target], op.offset, op.values)]
    else images
  }

  /** Apply the puts among `ops` one after the other, in issue order. */
  function ApplyPuts<T>(images: seq<seq<T>>, ops: seq<Op<T>>): seq<seq<T>>
    decreases |ops|
  {
    if |ops| == 0 then images
    else ApplyPut(ApplyPuts(images, ops[..|ops| - 1]), ops[|ops| - 1])
  }

  /** The operation names an existing processor and stays inside its image.
      A put of no elements only needs an existing target. */
  predicate InRange<T>(images: seq<seq<T>>, op: Op<T>) {
    && 0 <= op.target < |images|
    && match op
       case PutOp(_, offset, values) =>
         |values| == 0 || (0 <= offset && offset + |values| <= |images[op.target]|)
       case GetOp(_, index, _) => 0 <= index < |images[op.target]|
  }

  predicate AllInRange<T>(images: seq<seq<T>>, ops: seq<Op<T>>) {
    forall k | 0 <= k < |ops| :: InRange(images, ops[k])
  }

  predicate Addressable<T>(st: State<T>) {
    AllInRange(st.images, st.outbox)
  }

  /** Answer the gets among `ops`, in issue order, from `images`. */
  function Resolve<T>(heap: Heap<T>, images: seq<seq<T>>, ops: seq<Op<T>>): Heap<T>
    decreases |ops|
  {
    if |ops| == 0 then heap
    else
      var h := Resolve(heap, images, ops[..|ops| - 1]);
      var op := ops[|ops| - 1];
      if op.GetOp? && InRange(images, op)
      then Heap(h.cells[op.buffer := Cell(images[op.target][op.index], true)], h.next)
      else h
  }

  function Deliver<T>(st: State<T>): State<T> {
    var images := ApplyPuts(st.images, st.outbox);
    State(images, [], Resolve(st.heap, images, st.outbox))
  }

  /** Get buffers of the outbox exist and belong to one get each. */
  predicate Wf<T>(st: State<T>) {
    && HeapWf(st.heap)
    && (forall k | 0 <= k < |st.outbox| && st.outbox[k].GetOp? :: st.outbox[k].buffer in st.heap.cells)
    && (forall k, l | 0 <= k < |st.outbox| && 0 <= l < |st.outbox| && k != l && st.outbox[k].GetOp? && st.outbox[l].GetOp? ::
          st.outbox[k].buffer != st.outbox[l].buffer)
  }

  predicate Requested<T>(ops: seq<Op<T>>, id: BufferId) {
    exists k | 0 <= k < |ops| :: ops[k].GetOp? && ops[k].buffer == id
  }

  /** The barrier. A superstep that addresses a missing processor or an index
      outside its target image is refused as a whole; otherwise every image
      keeps its size and each cell ends up holding the value of the last put
      issued to it, or its old value when no put covered it. */
  function Sync<T>(st: State<T>): (r: Result<State<T>, Error>)
    ensures r.Success? <==> Addressable(st)
    ensures r.Success? ==> r.value.outbox == [] && r.value.heap.next == st.heap.next
    ensures r.Success? ==> |r.value.images| == |st.images|
    ensures r.Success? ==> forall u | 0 <= u < |st.images| :: |r.value.images[u]| == |st.images[u]|
    ensures r.Success? ==>
      forall t, j | 0 <= t < |st.images| && 0 <= j < |st.images[t]| ::
        r.value.images[t][j] == LastWrite(st.outbox, t, j).GetOr(st.images[t][j])
  {
    if Addressable(st) then
      ApplyPutsMeaning(st.images, st.outbox);
      ResolveDomain(st.heap, ApplyPuts(st.images, st.outbox), st.outbox);
      Success(Deliver(st))
    else
      Failure(IndexOutOfRange)
  }

  /** Applying puts in issue order agrees with the last-write reference, and
      never resizes an image. */
  lemma {:induction false} ApplyPutsMeaning<T>(images: seq<seq<T>>, ops: seq<Op<T>>)
    ensures |ApplyPuts(images, ops)| == |images|
    ensures forall u | 0 <= u < |images| :: |ApplyPuts(images, ops)[u]| == |images[u]|
    ensures forall t, j | 0 <= t < |images| && 0 <= j < |images[t]| ::
      ApplyPuts(images, ops)[t][j] == LastWrite(ops, t, j).GetOr(images[t][j])
    decreases |ops|
  {
    if |ops| > 0 {
      ApplyPutsMeaning(images, ops[..|ops| - 1]);
    }
  }

  /** Answering gets writes only requested buffers and never moves `next`. */
  lemma {:induction false} ResolveDomain<T>(heap: Heap<T>, images: seq<seq<T>>, ops: seq<Op<T>>)
    ensures Resolve(heap, images, ops).next == heap.next
    ensures heap.cells.Keys <= Resolve(heap, images, ops).cells.Keys
    ensures forall id | id in Resolve(heap, images, ops).cells && id !in heap.cells :: Requested(ops, id)
    ensures forall id | id in heap.cells && !Requested(ops, id) :: Resolve(heap, images, ops).cells[id] == heap.cells[id]
    decreases |ops|
  {
    if |ops| > 0 {
      var ops' := ops[..|ops| - 1];
      ResolveDomain(heap, images, ops');
      forall id | Requested(ops', id) ensures Requested(ops, id) {
        var k :| 0 <= k < |ops'| && ops'[k].GetOp? && ops'[k].buffer == id;
        assert ops[k] == ops'[k];
      }
      forall id | !Requested(ops, id) ensures !Requested(ops', id) {
      }
      if ops[|ops| - 1].GetOp? {
        assert Requested(ops, ops[|ops| - 1].buffer);
      }
    }
  }

  /** A get whose buffer no other get shares is answered with the element it
      names, and its buffer is marked resolved. */
  lemma {:induction false} ResolveAnswers<T>(heap: Heap<T>, images: seq<seq<T>>, ops: seq<Op<T>>, k: nat)
    requires k < |ops| && ops[k].GetOp? && InRange(images, ops[k])
    requires forall l | 0 <= l < |ops| && l != k && ops[l].GetOp? :: ops[l].buffer != ops[k].buffer
    ensures ops[k].buffer in Resolve(heap, images, ops).cells
    ensures Resolve(heap, images, ops).cells[ops[k].buffer] == Cell(images[ops[k].target][ops[k].index], true)
    decreases |ops|
  {
    var n := |ops| - 1;
    if k < n {
      ResolveAnswers(heap, images, ops[..n], k);
    }
  }

  /** After a sync every get of the superstep has its buffer resolved with
      the element it asked for, read after all puts were applied; no other
      buffer changes, and no buffer appears or disappears. */
  lemma SyncAnswersGets<T>(st: State<T>)
    requires Wf(st) && Addressable(st)
    ensures Sync(st).Success?
    ensures Wf(Sync(st).value) && Sync(st).value.heap.cells.Keys == st.heap.cells.Keys
    ensures forall k | 0 <= k < |st.outbox| && st.outbox[k].GetOp? ::
      var op := st.outbox[k];
      && op.buffer in Sync(st).value.heap.cells
      && Sync(st).value.heap.cells[op.buffer] == Cell(Sync(st).value.images[op.target][op.index], true)
    ensures forall id | id in st.heap.cells && !Requested(st.outbox, id) ::
      Sync(st).value.heap.cells[id] == st.heap.cells[id]
  {
    var after := Sync(st).value;
    var images := ApplyPuts(st.images, st.outbox);
    ResolveDomain(st.heap, images, st.outbox);
    forall k | 0 <= k < |st.outbox| && st.outbox[k].GetOp?
      ensures after.heap.cells[st.outbox[k].buffer] == Cell(after.images[st.outbox[k].target][st.outbox[k].index], true)
    {
      assert InRange(st.images, st.outbox[k]);
      ResolveAnswers(st.heap, images, st.outbox, k);
    }
  }

  /** Issuing more operations can only make a superstep addressable if it was
      before; the appended puts override the older ones cell by cell. */
  lemma SyncAppended<T>(st: State<T>, ops: seq<Op<T>>)
    requires Sync(Enqueue(st, ops)).Success?
    ensures Sync(st).Success?
    ensures AllInRange(st.images, ops)
    ensures forall t, j | 0 <= t < |st.images| && 0 <= j < |st.images[t]| ::
      Sync(Enqueue(st, ops)).value.images[t][j] == LastWrite(ops, t, j).GetOr(Sync(st).value.images[t][j])
  {
    AllInRangeSplit(st.images, st.outbox, ops);
    assert Addressable(st);
    var after := Sync(Enqueue(st, ops)).value;
    var before := Sync(st).value;
    forall t, j | 0 <= t < |st.images| && 0 <= j < |st.images[t]|
      ensures after.images[t][j] == LastWrite(ops, t, j).GetOr(before.images[t][j])
    {
      assert after.images[t][j] == LastWrite(st.outbox + ops, t, j).GetOr(st.images[t][j]);
      assert before.images[t][j] == LastWrite(st.outbox, t, j).GetOr(st.images[t][j]);
      LastWriteAppend(st.outbox, ops, t, j);
    }
  }

  lemma AllInRangeSplit<T>(images: seq<seq<T>>, a: seq<Op<T>>, b: seq<Op<T>>)
    requires AllInRange(images, a + b)
    ensures AllInRange(images, a) && AllInRange(images, b)
  {
    forall k | 0 <= k < |a| ensures InRange(images, a[k]) {
      assert (a + b)[k] == a[k];
    }
    forall k | 0 <= k < |b| ensures InRange(images, b[k]) {
      assert (a + b)[|a| + k] == b[k];
    }
  }

  /** The last write to a cell in `a + b` comes from `b` when `b` writes the cell at all. */
  lemma {:induction false} LastWriteAppend<T>(a: seq<Op<T>>, b: seq<Op<T>>, t: int, j: int)
    ensures LastWrite(a + b, t, j) == if LastWrite(b, t, j).Some? then LastWrite(b, t, j) else LastWrite(a, t, j)
    decreases |b|
  {
    if |b| == 0 {
      assert a + b == a;
    } else {
      assert (a + b)[..|a + b| - 1] == a + b[..|b| - 1];
      LastWriteAppend(a, b[..|b| - 1], t, j);
    }
  }

  /** A one-operation outbox writes exactly the cells its put covers. */
  lemma LastWriteSingle<T>(op: Op<T>, t: int, j: int)
    ensures LastWrite([op], t, j) == if Covers(op, t, j) then Some(op.values[j - op.offset]) else None
  {
    assert [op][..0] == [];
  }

  /** `LastWriteAppend` for every cell at once. */
  lemma AppendWrites<T>(a: seq<Op<T>>, b: seq<Op<T>>)
    ensures forall t, j :: LastWrite(a + b, t, j) ==
             if LastWrite(b, t, j).Some? then LastWrite(b, t, j) else LastWrite(a, t, j)
  {
    forall t, j ensures LastWrite(a + b, t, j) ==
      if LastWrite(b, t, j).Some? then LastWrite(b, t, j) else LastWrite(a, t, j)
    {
      LastWriteAppend(a, b, t, j);
    }
  }

  /** `LastWriteSingle` for every cell at once. */
  lemma SingleWrites<T>(op: Op<T>)
    ensures forall t, j :: LastWrite([op], t, j) == if Covers(op, t, j) then Some(op.values[j - op.offset]) else None
  {
    forall t, j ensures LastWrite([op], t, j) == if Covers(op, t, j) then Some(op.values[j - op.offset]) else None {
      LastWriteSingle(op, t, j);
    }
  }

  /** The barrier keeps the future ownership invariant: it writes into
      existing buffers only, so live handles keep distinct buffers that all
      still exist. */
  lemma SyncKeepsOwnership<T>(st: State<T>, live: seq<Future>)
    requires Wf(st) && Addressable(st) && Owned(st.heap, live)
    ensures Sync(st).Success? && Owned(Sync(st).value.heap, live)
  {
    SyncAnswersGets(st);
  }

  lemma AllInRangeAppend<T>(images: seq<seq<T>>, a: seq<Op<T>>, b: seq<Op<T>>)
    requires AllInRange(images, a) && AllInRange(images, b)
    ensures AllInRange(images, a + b)
  {
    forall k | 0 <= k < |a + b| ensures InRange(images, (a + b)[k]) {
      if k >= |a| {
        assert (a + b)[k] == b[k - |a|];
      }
    }
  }

  /** Issuing operations keeps the superstep acceptable exactly when it was
      acceptable before and every new operation is in range. */
  lemma SyncEnqueueAccepted<T>(st: State<T>, ops: seq<Op<T>>)
    ensures Sync(Enqueue(st, ops)).Success? <==> Addressable(st) && AllInRange(st.images, ops)
  {
    if Sync(Enqueue(st, ops)).Success? {
      SyncAppended(st, ops);
    }
    if Addressable(st) && AllInRange(st.images, ops) {
      AllInRangeAppend(st.images, st.outbox, ops);
    }
  }

  /** A cell that an in-range outbox writes lies inside an existing image. */
  lemma {:induction false} CoveredInRange<T>(images: seq<seq<T>>, ops: seq<Op<T>>, t: int, j: int)
    requires AllInRange(images, ops) && LastWrite(ops, t, j).Some?
    ensures 0 <= t < |images| && 0 <= j < |images[t]|
    decreases |ops|
  {
    var op := ops[|ops| - 1];
    assert InRange(images, op);
    if !Covers(op, t, j) {
      var init := ops[..|ops| - 1];
      assert forall k | 0 <= k < |init| :: init[k] == ops[k];
      CoveredInRange(images, init, t, j);
    }
  }
}

=== FILE: wrappers.dfy ===
/** Optional values and results with an error, shared by every module of the model. */
module Wrappers {

  datatype Option<T> = None | Some(value: T) {

    /** The held value, or `default` when there is none. */
    function GetOr(default: T): T {
      match this
      case Some(v) => v
      case None => default
    }
  }

  datatype Result<T, E> = Success(value: T) | Failure(error: E)
}
